=== FILE: README.md ===
# Room and submission backend: a Dafny model of the request handlers

This project models the request-handler layer of a small Express + SQLite
backend (`server.js`). It serves two unrelated resources: student work
submissions, which can only be appended and listed, and hotel room
records, which can be listed, created, updated and deleted by an admin and
have their status changed by an admin or a student.

Each handler is a pure function from a store and a request to an HTTP
status code, a JSON body and the new store. The store holds both tables of
the in-memory database:

- `work_submissions` is an append-only sequence of rows under AUTOINCREMENT
  ids (`SubmissionLog`).
- `rooms` is a sequence of rows in rowid order (`RoomsTable`). Only what
  the table definition declares is modelled: NOT NULL columns, the primary
  key on `id` and `UNIQUE` on `roomNumber`. An INSERT or UPDATE that breaks
  a unique index gives a unique-constraint error. A NOT NULL column bound
  to NULL (key absent or null) gives a different error. An UPDATE or DELETE that matches no row reports
  zero changes and checks no constraint.

The handlers (`Server`) map these outcomes to responses as the code does.
A unique-constraint error gives 400 "Room number already exists". Zero
changes give 404 "Room not found". Any other failure gives 500. The role
gates run before anything else: admin only for create, update and delete,
and admin or student for the status route. The store invariant `Valid`
(unique `id` and `roomNumber`, increasing submission ids) holds after
start-up and is kept by every handler, so it holds in every reachable
store (`Properties.ReachableStoresValid`).

Behaviour of the code that the model reproduces on purpose:

- `id` is `TEXT PRIMARY KEY`, and SQLite admits NULL in such a column. A
  create without `id` therefore succeeds and stores a row that no update,
  delete or status patch can reach (`RoomsTable.IndexOf` never matches it).
- The INSERT names every column, so the `status` and `capacity` defaults
  never apply. A missing `status` gives 500 and a missing `capacity` is
  stored as NULL.
- A create stores `updatedBy := createdBy` but echoes the `room` object it
  received. An update echoes `updates` rather than the stored row.
- A status patch stores `updatedBy := user.email`. A user without an email
  gets 500 on an existing room. The `updatedAt` in the reply is a second
  clock reading, not necessarily the stored one.
- A missing `room` or `updates` object makes the handler throw while
  reading its fields. The error middleware then answers 500 "Something
  went wrong!".
- When one statement breaks both a NOT NULL and a unique constraint,
  SQLite reports the NOT NULL failure first, so the answer is 500.

Clock readings and generic database failures are inputs: `Env` carries the
first and second `new Date().toISOString()` a handler evaluates and a flag
that makes the statement fail for a reason other than a declared
constraint.

## Model

| member | source | states |
|---|---|---|
| `Ordering.SortBy` | server.js:178 | the result is a permutation of the rows, in ascending (or descending) BINARY-collation order of the key, as `ORDER BY` returns them |
| `Ordering.SortedPairwise` | server.js:178 | in a sorted listing every earlier row's key precedes every later row's key |
| `Ordering.ListedAfter` | server.js:178 | a row whose room number sorts strictly after another's is listed after it |
| `RoomsTable.IndexOf` | server.js:240 | `WHERE id = ?` matches a row exactly when one carries that id; a row with a NULL id never matches |
| `RoomsTable.IndexOfUnique` | server.js:32 | under the primary key, the matched row is the only row with that id |
| `RoomsTable.KeysKeptUnique` | server.js:32-33 | replacing a row with one that keeps its id and takes a room number no other row holds keeps both keys unique |
| `RoomsTable.Insert` | server.js:197-213 | an engine failure exactly when the fault flag is set; otherwise a NOT NULL error exactly when a required column is missing, a unique error exactly when the row clashes with an existing id or room number, and else one row built from the `room` object is appended; a success keeps the keys unique |
| `RoomsTable.InsertOrIgnore` | server.js:94-96 | `INSERT OR IGNORE` appends the row when it clashes with none and otherwise leaves the table alone, keeping the keys unique |
| `RoomsTable.Update` | server.js:238-252 | an engine failure exactly when the fault flag is set; zero changes exactly when no row has the id; a NOT NULL error exactly when the row exists and a required column is missing; a unique error exactly when another row has the new room number; otherwise only the matched row changes, to the updated columns; keys stay unique |
| `RoomsTable.Delete` | server.js:281 | an error exactly when the fault flag is set; zero changes exactly when no row has the id; otherwise exactly the matched row is removed and no row with that id remains |
| `RoomsTable.SetStatus` | server.js:305-312 | an engine failure exactly when the fault flag is set; zero changes exactly when no row has the id; a NOT NULL error exactly when the row exists but status or email is missing; otherwise only status, updatedAt and updatedBy of the matched row change |
| `SubmissionLog.NextId` | server.js:20 | the AUTOINCREMENT id is positive and larger than every id already in the log |
| `Seed.InsertAllOrIgnore` | server.js:93-112 | inserting rows one by one with `INSERT OR IGNORE` keeps the keys unique |
| `Seed.InsertAllKeepsAll` | server.js:93-112 | rows that clash with nothing are all inserted, in order |
| `Seed.SampleRoomsUnique` | server.js:48-91 | the three sample rooms differ in id and room number |
| `Seed.SeedKeepsEverySample` | server.js:48-112 | start-up stores all three sample rooms |
| `Server.Boot` | server.js:16-112 | the store after start-up satisfies the invariant |
| `Server.PostSubmission` | server.js:134-163 | 200 exactly when all three fields are non-empty and the database does not fail; 400 exactly when a field is absent or empty; 500 exactly on a database failure, with the generic "Failed to save submission"; only a 200 changes the store, appending one row with the given fields under a fresh id larger than all earlier ones, which the reply returns with the message "Work submission saved successfully" |
| `Server.GetSubmissions` | server.js:165-174 | the store is unchanged; the reply lists every submission once, newest `created_at` first, or 500 on a database failure |
| `Server.GetRooms` | server.js:177-186 | the store is unchanged; the reply lists every room once, in room-number order, or 500 on a database failure |
| `Server.PostRoom` | server.js:188-226 | 403 exactly for a missing or non-admin user; 500 exactly for an admin request with no `room` (the middleware's "Something went wrong!"), a missing NOT NULL column or a database failure ("Failed to add room"); 400 exactly when the complete row clashes with an existing id or room number; on 200 the stored row holds the supplied fields with `updatedBy` set to `createdBy` and the reply echoes `room`; nothing changes otherwise; the invariant is kept |
| `Server.PutRoom` | server.js:228-269 | 403 exactly for a non-admin; 404 exactly when no row has the id; 500 exactly for an admin request with no `updates` ("Something went wrong!"), a database failure, or an existing row with a missing NOT NULL column ("Failed to update room"); 400 exactly when the complete update gives the row a room number another row holds; on 200 the row with the id has every column but id, createdAt and createdBy replaced, no other row changes and the reply echoes `updates`; the invariant is kept |
| `Server.DeleteRoom` | server.js:271-293 | 403 exactly for a non-admin; 404 "Room not found" exactly when no row has the id; 500 "Failed to delete room" exactly on a database failure; on 200 exactly that row is gone and no row with the id remains; the invariant is kept |
| `Server.PatchRoomStatus` | server.js:295-326 | 403 exactly unless the role is admin or student; 404 "Room not found" exactly when no row has the id; 500 "Failed to update room status" exactly on a database failure or when the row exists and status or email is missing; on 200 only status, updatedAt and updatedBy (the user's email) of that row change and the reply carries the status and a second clock reading |
| `Server.Handle` | server.js:134-326 | every handled request keeps the invariant, and a non-200 answer leaves the store unchanged |
| `Properties.AdminGateFirst` | server.js:192-194 | create, update and delete by a missing or non-admin user answer 403 and change nothing, whatever else the request holds |
| `Properties.StatusGateFirst` | server.js:300-302 | the status route answers 403 without change exactly when the role is neither admin nor student |
| `Properties.RunKeepsValid` | server.js:32-33 | any sequence of requests from a valid store leaves a valid store |
| `Properties.ReachableStoresValid` | server.js:16-112 | from start-up on, ids and room numbers stay unique and submission ids keep growing |
| `Properties.SubmittedWorkIsListed` | server.js:156-172 | a submission that succeeds appears, with its id and fields, in the next listing |
| `Properties.DuplicateCreateRefused` | server.js:214-219 | a second create with the room number of a successful one answers 400 and leaves the store as it was |
| `Properties.ConflictingUpdateRefused` | server.js:253-258 | an update giving a room the number of a different room answers 400 and changes nothing |
| `Properties.UpdateKeepingNumberAccepted` | server.js:238-266 | an update that keeps the room's own number and supplies every NOT NULL column succeeds |
| `Properties.CreateMissingColumnFails` | server.js:214-220 | a create with a NOT NULL column missing answers 500 and stores nothing |
| `Properties.MissingObjectFails` | server.js:329-332 | a create without `room` or an update without `updates` answers the error middleware's 500 |
| `Properties.StatusWithoutEmailFails` | server.js:305-317 | a status patch of an existing room by a user without an email answers 500 and changes nothing |
| `Properties.RepeatedDeleteNotFound` | server.js:281-289 | after a first delete by an admin that hit no database failure, a second delete of the same id gets 404 |
| `Properties.StudentMarksSeedRoomDirty` | server.js:295-323 | after start-up a student may mark room_1 dirty; the listing shows the status and the student's email as updatedBy |
| `Properties.AdminAddsRoomFour` | server.js:188-223 | after start-up an admin may add room_4 numbered 301; the reply echoes it and the listing shows it after room 201 |

## Left out

- Express wiring: CORS and JSON middleware, route matching, the catch-all 404 and the root and health endpoints (server.js:1-10, 116-131, 334-337) carry no logic. The error middleware (server.js:329-332) appears only as the 500 a handler that throws receives.
- Server start, console logging and SIGINT shutdown (server.js:340-367) are I/O.
- Clock reads are `Env.clock1` and `Env.clock2`; start-up uses one reading for every seed timestamp, where the code reads the clock per field.
- Database failures other than the declared constraints are one flag, `Env.storeFails`, which makes the statement fail and the handler answer 500 with the store unchanged. Callback and asynchronous execution are not modelled.
- `price` is REAL in the table and an opaque integer here; no floating-point behaviour is modelled.
- Body fields hold text or integers of the expected JSON type, or are absent. SQLite type-affinity conversions of values of another JSON type (a number sent as `roomNumber`, say) are not modelled. Truthiness is modelled only for text: absent or empty is falsy.
- Keys of the `room` and `updates` objects other than the twelve columns are not modelled, neither in what is stored (the statements bind only the columns) nor in the echoed reply, which in the code returns the whole object received.
- Authentication: the role and email come from the request body and are trusted, as in the code.
- AUTOINCREMENT exhaustion at the largest 64-bit rowid is not modelled: ids are unbounded integers.
- Server.GetSubmissions: submissions with equal `created_at` may come back in any order. The contract states only a permutation sorted newest first, and the function picks one such order.

=== FILE: ordering.dfy ===
/**
 The orders SQLite uses for `ORDER BY` on a TEXT column under the default
 BINARY collation, and a sort that produces them.

 BINARY compares the UTF-8 bytes of two strings; UTF-8 preserves the order of
 code points, so on `string` (a sequence of Unicode scalar values) the same
 order is the lexicographic order on characters.
 */
module Ordering {

  /** `a` sorts no later than `b` under the BINARY collation. */
  predicate LexLeq(a: string, b: string)
    decreases |a|
  {
    |a| == 0 || (|b| != 0 && (a[0] < b[0] || (a[0] == b[0] && LexLeq(a[1..], b[1..]))))
  }

  lemma {:induction false} LexLeqTotal(a: string, b: string)
    ensures LexLeq(a, b) || LexLeq(b, a)
    decreases |a|
  {
    if |a| != 0 && |b| != 0 && a[0] == b[0] {
      LexLeqTotal(a[1..], b[1..]);
    }
  }

  lemma {:induction false} LexLeqTransitive(a: string, b: string, c: string)
    requires LexLeq(a, b) && LexLeq(b, c)
    ensures LexLeq(a, c)
    decreases |a|
  {
    if |a| != 0 && a[0] == b[0] && b[0] == c[0] {
      LexLeqTransitive(a[1..], b[1..], c[1..]);
    }
  }

  /** `a` may be listed before `b` in an `ORDER BY` that is ascending, or descending when `descending` holds. */
  predicate Precedes(a: string, b: string, descending: bool)
  {
    if descending then LexLeq(b, a) else LexLeq(a, b)
  }

  lemma PrecedesTotal(a: string, b: string, descending: bool)
    ensures Precedes(a, b, descending) || Precedes(b, a, descending)
  {
    LexLeqTotal(a, b);
  }

  /** Every neighbouring pair of `s` is in `ORDER BY key` order. */
  predicate SortedBy<T>(s: seq<T>, key: T -> string, descending: bool)
  {
    forall i :: 0 < i < |s| ==> Precedes(key(s[i - 1]), key(s[i]), descending)
  }

  lemma PrecedesTransitive(a: string, b: string, c: string, descending: bool)
    requires Precedes(a, b, descending) && Precedes(b, c, descending)
    ensures Precedes(a, c, descending)
  {
    if descending { LexLeqTransitive(c, b, a); } else { LexLeqTransitive(a, b, c); }
  }

  /** In a sorted sequence every earlier element precedes every later one. */
  lemma {:induction false} SortedPairwise<T>(s: seq<T>, key: T -> string, descending: bool, i: int, j: int)
    requires SortedBy(s, key, descending)
    requires 0 <= i < j < |s|
    ensures Precedes(key(s[i]), key(s[j]), descending)
    decreases j - i
  {
    if i + 1 < j {
      SortedPairwise(s, key, descending, i + 1, j);
      PrecedesTransitive(key(s[i]), key(s[i + 1]), key(s[j]), descending);
    }
  }

  /** In an ascending sequence, an element whose key sorts strictly after
      another's is listed after it. */
  lemma ListedAfter<T>(s: seq<T>, key: T -> string, a: T, b: T)
    requires SortedBy(s, key, false)
    requires a in s && b in s && !LexLeq(key(a), key(b))
    ensures exists p, q :: 0 <= q < p < |s| && s[p] == a && s[q] == b
  {
    var p :| 0 <= p < |s| && s[p] == a;
    var q :| 0 <= q < |s| && s[q] == b;
    if p < q {
      SortedPairwise(s, key, false, p, q);
    }
    LexLeqTotal(key(a), key(b));
  }

  /** Places `x` into the sorted `s`. */
  function InsertBy<T>(x: T, s: seq<T>, key: T -> string, descending: bool): (r: seq<T>)
    requires SortedBy(s, key, descending)
    ensures SortedBy(r, key, descending)
    ensures multiset(r) == multiset(s) + multiset{x}
    ensures |r| == |s| + 1
    ensures r[0] == x || (|s| != 0 && r[0] == s[0])
  {
    if |s| == 0 then [x]
    else if Precedes(key(x), key(s[0]), descending) then [x] + s
    else
      PrecedesTotal(key(x), key(s[0]), descending);
      var rest := InsertBy(x, s[1..], key, descending);
      assert s == [s[0]] + s[1..];
      [s[0]] + rest
  }

  /** The rows of `s` in `ORDER BY key` order (ascending, or descending when `descending` holds). */
  function SortBy<T>(s: seq<T>, key: T -> string, descending: bool): (r: seq<T>)
    ensures SortedBy(r, key, descending)
    ensures multiset(r) == multiset(s)
    ensures |r| == |s|
  {
    if |s| == 0 then []
    else
      assert s == [s[0]] + s[1..];
      InsertBy(s[0], SortBy(s[1..], key, descending), key, descending)
  }
}

=== FILE: properties.dfy ===
/**
 Properties of the request handlers that relate several calls, or hold of
 every request of a kind.
 */
module Properties {
  import opened Wrappers
  import opened Schema
  import opened Ordering
  import opened RoomsTable
  import opened SubmissionLog
  import opened Server

  /** Create, update and delete answer 403 to a missing or non-admin user and
      change nothing, whatever the rest of the request and the database do. */
  lemma AdminGateFirst(s: Store, req: Request, env: Env)
    requires req.AddRoom? || req.ReplaceRoom? || req.RemoveRoom?
    requires !IsAdmin(req.user)
    ensures Handle(s, req, env) == Reply(Response(403, Failure(AdminRequired)), s)
  {
  }

  /** The status route answers 403, changing nothing, unless the role is
      `admin` or `student`. */
  lemma StatusGateFirst(s: Store, id: string, status: Option<string>, user: Option<User>, env: Env)
    ensures !MaySetStatus(user) <==>
              PatchRoomStatus(s, id, status, user, env) == Reply(Response(403, Failure(PermissionRequired)), s)
  {
  }

  /** Every reachable store keeps the invariant: serving any sequence of
      requests from a store that keeps it keeps it. */
  lemma {:induction false} RunKeepsValid(s: Store, calls: seq<Call>)
    requires Valid(s)
    ensures Valid(Run(s, calls))
    decreases |calls|
  {
    if |calls| != 0 {
      RunKeepsValid(Handle(s, calls[0].request, calls[0].env).store, calls[1..]);
    }
  }

  /** From start-up on, `id` and `roomNumber` stay unique and submission ids
      keep growing. */
  lemma ReachableStoresValid(now: string, calls: seq<Call>)
    ensures UniqueKeys(Run(Boot(now), calls).rooms)
    ensures IdsIncreasing(Run(Boot(now), calls).submissions)
  {
    RunKeepsValid(Boot(now), calls);
  }

  /** A submission that succeeds is in the next listing. */
  lemma SubmittedWorkIsListed(s: Store, n: Option<string>, w: Option<string>, c: Option<string>,
                              env: Env, env': Env)
    requires !env'.storeFails
    ensures var r := PostSubmission(s, n, w, c, env);
            r.response.code == 200 ==>
              exists row :: row in GetSubmissions(r.store, env').response.body.submissions
                            && row.id == r.response.body.id
                            && Some(row.studentName) == n && Some(row.workType) == w && Some(row.content) == c
  {
    var r := PostSubmission(s, n, w, c, env);
    if r.response.code == 200 {
      var row := r.store.submissions[|s.submissions|];
      var listed := GetSubmissions(r.store, env').response.body.submissions;
      assert row in multiset(r.store.submissions);
      assert row in multiset(listed);
    }
  }

  /** A second create that reuses the room number of a successful one is
      refused with 400, and the first row stays as it was stored. */
  lemma DuplicateCreateRefused(s: Store, f: RoomFields, g: RoomFields, user: Option<User>,
                               env: Env, env': Env)
    requires IsAdmin(user) && !env'.storeFails
    requires InsertedRow(g).Some? && g.roomNumber == f.roomNumber
    ensures var r := PostRoom(s, Some(f), user, env);
            r.response.code == 200 ==>
              PostRoom(r.store, Some(g), user, env') == Reply(Response(400, Failure(RoomNumberTaken)), r.store)
  {
    var r := PostRoom(s, Some(f), user, env);
    if r.response.code == 200 {
      var j := |s.rooms|;
      assert Clash(r.store.rooms[j], InsertedRow(g).value);
    }
  }

  /** An update that gives a room the number of a different existing room is
      refused with 400 and changes nothing. */
  lemma ConflictingUpdateRefused(s: Store, id: string, f: RoomFields, user: Option<User>, env: Env, i: int, j: int)
    requires Valid(s)
    requires IsAdmin(user) && !env.storeFails
    requires 0 <= i < |s.rooms| && s.rooms[i].id == Some(id)
    requires UpdatedRow(s.rooms[i], f).Some?
    requires 0 <= j < |s.rooms| && j != i && Some(s.rooms[j].roomNumber) == f.roomNumber
    ensures PutRoom(s, id, Some(f), user, env) == Reply(Response(400, Failure(RoomNumberTaken)), s)
  {
    IndexOfUnique(s.rooms, id, i);
    assert !NumberFree(s.rooms, f.roomNumber.value, i);
  }

  /** An update that keeps a room's own number never conflicts: with every
      NOT NULL column supplied it succeeds. */
  lemma UpdateKeepingNumberAccepted(s: Store, id: string, f: RoomFields, user: Option<User>, env: Env, i: int)
    requires Valid(s)
    requires IsAdmin(user) && !env.storeFails
    requires 0 <= i < |s.rooms| && s.rooms[i].id == Some(id)
    requires UpdatedRow(s.rooms[i], f).Some? && f.roomNumber == Some(s.rooms[i].roomNumber)
    ensures PutRoom(s, id, Some(f), user, env).response.code == 200
  {
    IndexOfUnique(s.rooms, id, i);
    forall j | 0 <= j < |s.rooms| && j != i
      ensures s.rooms[j].roomNumber != f.roomNumber.value
    {
      if j < i { assert !Clash(s.rooms[j], s.rooms[i]); } else { assert !Clash(s.rooms[i], s.rooms[j]); }
    }
  }

  /** A create that binds NULL to a NOT NULL column (key absent or null) is a database error other
      than a unique violation, so it answers 500, not 400, and stores nothing.
      `status` and `capacity` have defaults in the table, but the INSERT names
      every column, so the defaults never apply. */
  lemma CreateMissingColumnFails(s: Store, f: RoomFields, user: Option<User>, env: Env)
    requires IsAdmin(user)
    requires f.roomNumber.None? || f.roomType.None? || f.price.None? || f.status.None?
             || f.createdAt.None? || f.createdBy.None? || f.updatedAt.None?
    ensures PostRoom(s, Some(f), user, env).response.code == 500
    ensures PostRoom(s, Some(f), user, env).store == s
  {
  }

  /** A create without a `room` object, or an update without `updates`,
      throws while reading its fields and the error middleware answers 500. */
  lemma MissingObjectFails(s: Store, id: string, user: Option<User>, env: Env)
    requires IsAdmin(user)
    ensures PostRoom(s, None, user, env) == Reply(Response(500, Failure(SomethingWentWrong)), s)
    ensures PutRoom(s, id, None, user, env) == Reply(Response(500, Failure(SomethingWentWrong)), s)
  {
  }

  /** A status patch on an existing room by a user without an email writes
      NULL into the NOT NULL `updatedBy` and answers 500, changing nothing. */
  lemma StatusWithoutEmailFails(s: Store, id: string, status: Option<string>, role: Option<string>,
                                env: Env, i: int)
    requires MaySetStatus(Some(User(role, None)))
    requires 0 <= i < |s.rooms| && s.rooms[i].id == Some(id)
    ensures PatchRoomStatus(s, id, status, Some(User(role, None)), env)
              == Reply(Response(500, Failure(StatusFailed)), s)
  {
  }

  /** Deleting the same id twice: after a first delete by an admin that hit no
      database failure, whether it answered 200 or 404, the second answers 404. */
  lemma RepeatedDeleteNotFound(s: Store, id: string, user: Option<User>, env: Env, env': Env)
    requires Valid(s)
    requires IsAdmin(user) && !env.storeFails && !env'.storeFails
    ensures DeleteRoom(DeleteRoom(s, id, user, env).store, id, user, env').response.code == 404
  {
  }

  /** On a freshly started server a student may mark `room_1` dirty; the
      listing then shows the new status and the student's email as
      `updatedBy`. */
  lemma StudentMarksSeedRoomDirty(now: string, env: Env, env': Env)
    requires !env.storeFails && !env'.storeFails
    ensures var user := Some(User(Some("student"), Some("s@x.com")));
            var r := PatchRoomStatus(Boot(now), "room_1", Some("dirty"), user, env);
            && r.response == Response(200, StatusData("dirty", env.clock2))
            && exists row :: row in GetRooms(r.store, env').response.body.rooms
                             && row.id == Some("room_1") && row.status == "dirty" && row.updatedBy == "s@x.com"
  {
    Seed.SeedKeepsEverySample(now);
    var user := Some(User(Some("student"), Some("s@x.com")));
    var s := Boot(now);
    assert s.rooms[0].id == Some("room_1");
    IndexOfUnique(s.rooms, "room_1", 0);
    var r := PatchRoomStatus(s, "room_1", Some("dirty"), user, env);
    var row := r.store.rooms[0];
    assert row in multiset(r.store.rooms);
    assert row in multiset(GetRooms(r.store, env').response.body.rooms);
  }

  /** On a freshly started server an admin may add `room_4` with number 301;
      the reply echoes the room and the listing includes it after room 201. */
  lemma AdminAddsRoomFour(now: string, t: string, env: Env, env': Env)
    requires !env.storeFails && !env'.storeFails
    ensures var room := RoomFields(Some("room_4"), Some("301"), Some("standard"), Some(2000), Some("available"),
                                   Some(3), Some(2), Some("x"), Some(t), Some("a@x.com"), Some(t), Some("a@x.com"));
            var r := PostRoom(Boot(now), Some(room), Some(User(Some("admin"), None)), env);
            && r.response == Response(200, RoomData(room))
            && (var listed := GetRooms(r.store, env').response.body.rooms;
                exists p, q :: 0 <= q < p < |listed|
                               && listed[p].id == Some("room_4") && listed[p].roomNumber == "301"
                               && listed[q].roomNumber == "201")
  {
    Seed.SeedKeepsEverySample(now);
    var room := RoomFields(Some("room_4"), Some("301"), Some("standard"), Some(2000), Some("available"),
                           Some(3), Some(2), Some("x"), Some(t), Some("a@x.com"), Some(t), Some("a@x.com"));
    var s := Boot(now);
    var row := InsertedRow(room).value;
    assert Admits(s.rooms, row, -1) by {
      assert s.rooms[0].roomNumber == "101" && s.rooms[1].roomNumber == "102" && s.rooms[2].roomNumber == "201";
    }
    var r := PostRoom(s, Some(room), Some(User(Some("admin"), None)), env);
    assert r.store.rooms[3] == row;
    var listed := GetRooms(r.store, env').response.body.rooms;
    assert row in multiset(r.store.rooms) && s.rooms[2] in multiset(r.store.rooms);
    assert row in multiset(listed) && s.rooms[2] in multiset(listed);
    assert !LexLeq(RoomNumber(row), RoomNumber(s.rooms[2])) by {
      assert RoomNumber(row) == "301" && RoomNumber(s.rooms[2]) == "201";
    }
    ListedAfter(listed, RoomNumber, row, s.rooms[2]);
  }
}

=== FILE: rooms_table.dfy ===
/**
 The `rooms` table as a sequence of rows in rowid order, and the effect of
 each SQL statement the server runs on it (server.js:93-112, 197-213,
 238-252, 281, 305-312). Only the constraints the table definition declares
 are modelled: NOT NULL columns, the primary key on `id` and UNIQUE on
 `roomNumber`.
 */
module RoomsTable {
  import opened Wrappers
  import opened Schema

  /** Why a statement failed: a NOT NULL column received NULL, a unique index
      already held the key, or any other engine failure. */
  datatype DbError = NotNullFailed | UniqueFailed | EngineFailed

  /** What the statement callback sees: the table afterwards with
      `this.changes`, or the error. A failed statement changes nothing. */
  datatype Exec = Ok(table: seq<Room>, changes: nat) | Err(error: DbError)

  /** Two rows that may not share the table: same `roomNumber`, or the same
      non-NULL `id` (NULLs are distinct in a unique index). */
  predicate Clash(a: Room, b: Room)
  {
    a.roomNumber == b.roomNumber || (a.id.Some? && a.id == b.id)
  }

  /** The table invariant the PRIMARY KEY and UNIQUE declarations enforce. */
  predicate UniqueKeys(t: seq<Room>)
  {
    forall i, j :: 0 <= i < j < |t| ==> !Clash(t[i], t[j])
  }

  /** `row` clashes with no row of `t` except the one at index `skip` (the
      row it replaces in an UPDATE; -1 for an INSERT). */
  predicate Admits(t: seq<Room>, row: Room, skip: int)
  {
    forall j :: 0 <= j < |t| && j != skip ==> !Clash(t[j], row)
  }

  /** The row matched by `WHERE id = ?`: the path parameter is a string, so a
      row whose `id` is NULL never matches. */
  function IndexOf(t: seq<Room>, id: string): (r: Option<nat>)
    ensures r.Some? ==> r.value < |t| && t[r.value].id == Some(id)
    ensures r.None? <==> forall i :: 0 <= i < |t| ==> t[i].id != Some(id)
  {
    if |t| == 0 then None
    else if t[0].id == Some(id) then Some(0)
    else
      match IndexOf(t[1..], id)
      case None => None
      case Some(k) => Some(k + 1)
  }

  /** Under the invariant at most one row carries a given id. */
  lemma IndexOfUnique(t: seq<Room>, id: string, j: int)
    requires UniqueKeys(t)
    requires 0 <= j < |t| && t[j].id == Some(id)
    ensures IndexOf(t, id) == Some(j)
  {
    var i := IndexOf(t, id).value;
    if i < j {
      assert Clash(t[i], t[j]);
    } else if j < i {
      assert Clash(t[j], t[i]);
    }
  }

  /** The row an INSERT binds from a `room` object (server.js:198-213), or
      None when a NOT NULL column would receive NULL. `updatedBy` is bound to
      `room.createdBy`, not `room.updatedBy`. */
  function InsertedRow(f: RoomFields): Option<Room>
  {
    if f.roomNumber.Some? && f.roomType.Some? && f.price.Some? && f.status.Some?
       && f.createdAt.Some? && f.createdBy.Some? && f.updatedAt.Some?
    then Some(Room(f.id, f.roomNumber.value, f.roomType.value, f.price.value, f.status.value,
                   f.floor, f.capacity, f.description,
                   f.createdAt.value, f.createdBy.value, f.updatedAt.value, f.createdBy.value))
    else None
  }

  /** The row an UPDATE of every column but `id`, `createdAt` and `createdBy`
      makes from `row` (server.js:239-252), or None when a NOT NULL column
      would receive NULL. */
  function UpdatedRow(row: Room, f: RoomFields): Option<Room>
  {
    if f.roomNumber.Some? && f.roomType.Some? && f.price.Some? && f.status.Some?
       && f.updatedAt.Some? && f.updatedBy.Some?
    then Some(row.(roomNumber := f.roomNumber.value, roomType := f.roomType.value,
                   price := f.price.value, status := f.status.value,
                   floor := f.floor, capacity := f.capacity, description := f.description,
                   updatedAt := f.updatedAt.value, updatedBy := f.updatedBy.value))
    else None
  }

  /** No row of `t` other than the one at index `skip` has room number `n`. */
  predicate NumberFree(t: seq<Room>, n: string, skip: int)
  {
    forall j :: 0 <= j < |t| && j != skip ==> t[j].roomNumber != n
  }

  /** Replacing a row of a table that keeps its keys unique by a row with the
      same `id`, whose room number no other row holds, keeps them unique. */
  lemma KeysKeptUnique(t: seq<Room>, i: nat, row: Room)
    requires UniqueKeys(t)
    requires i < |t| && row.id == t[i].id
    requires NumberFree(t, row.roomNumber, i)
    ensures UniqueKeys(t[i := row])
  {
    var u := t[i := row];
    forall a, b | 0 <= a < b < |u|
      ensures !Clash(u[a], u[b])
    {
      if a == i {
        assert !Clash(t[i], t[b]);
      } else if b == i {
        assert !Clash(t[a], t[i]);
      }
    }
  }

  /** `t` without its row at index `i`. */
  function RemoveAt(t: seq<Room>, i: nat): (r: seq<Room>)
    requires i < |t|
    ensures |r| == |t| - 1
    ensures forall k :: 0 <= k < i ==> r[k] == t[k]
    ensures forall k :: i <= k < |r| ==> r[k] == t[k + 1]
  {
    t[..i] + t[i + 1..]
  }

  /** `INSERT INTO rooms ...` with the values of a `room` object. SQLite
      checks NOT NULL columns before unique indexes. */
  function Insert(t: seq<Room>, f: RoomFields, engineFault: bool): (r: Exec)
    ensures r == Err(EngineFailed) <==> engineFault
    ensures r.Ok? <==> !engineFault && InsertedRow(f).Some? && Admits(t, InsertedRow(f).value, -1)
    ensures r.Ok? ==> r.changes == 1 && |r.table| == |t| + 1 && r.table[..|t|] == t
    ensures r.Ok? ==> InsertedRow(f) == Some(r.table[|t|])
    ensures r == Err(NotNullFailed) <==> !engineFault && InsertedRow(f).None?
    ensures r == Err(UniqueFailed) <==>
              !engineFault && InsertedRow(f).Some? && !Admits(t, InsertedRow(f).value, -1)
    ensures UniqueKeys(t) && r.Ok? ==> UniqueKeys(r.table)
  {
    if engineFault then Err(EngineFailed)
    else
      match InsertedRow(f)
      case None => Err(NotNullFailed)
      case Some(row) => if Admits(t, row, -1) then Ok(t + [row], 1) else Err(UniqueFailed)
  }

  /** `INSERT OR IGNORE` of a complete row: a row that would break a unique
      index is skipped (server.js:94-111). */
  function InsertOrIgnore(t: seq<Room>, row: Room): (r: seq<Room>)
    ensures Admits(t, row, -1) ==> r == t + [row]
    ensures !Admits(t, row, -1) ==> r == t
    ensures UniqueKeys(t) ==> UniqueKeys(r)
  {
    if Admits(t, row, -1) then t + [row] else t
  }

  /** `UPDATE rooms SET roomNumber = ?, ... WHERE id = ?` (server.js:238-252).
      A statement that matches no row changes nothing and checks no
      constraint; of the unique indexes only the one on `roomNumber` covers a
      column the statement sets. Only the first row carrying the id is
      changed: SQL would change every such row, but under `UniqueKeys`,
      which every store reachable from start-up keeps, there is at most one. */
  function Update(t: seq<Room>, id: string, f: RoomFields, engineFault: bool): (r: Exec)
    ensures r == Err(EngineFailed) <==> engineFault
    ensures r == Err(NotNullFailed) <==>
              !engineFault && IndexOf(t, id).Some? && UpdatedRow(t[IndexOf(t, id).value], f).None?
    ensures r.Ok? ==> |r.table| == |t|
    ensures r.Ok? && r.changes == 0 <==> !engineFault && IndexOf(t, id).None?
    ensures r.Ok? && r.changes == 0 ==> r.table == t
    ensures r.Ok? && r.changes != 0 ==>
              && r.changes == 1
              && IndexOf(t, id).Some?
              && var i := IndexOf(t, id).value;
              && UpdatedRow(t[i], f) == Some(r.table[i])
              && (forall k :: 0 <= k < |t| && k != i ==> r.table[k] == t[k])
    ensures r == Err(UniqueFailed) <==>
              && !engineFault && IndexOf(t, id).Some?
              && UpdatedRow(t[IndexOf(t, id).value], f).Some?
              && !NumberFree(t, f.roomNumber.value, IndexOf(t, id).value)
    ensures UniqueKeys(t) && r.Ok? ==> UniqueKeys(r.table)
  {
    if engineFault then Err(EngineFailed)
    else
      match IndexOf(t, id)
      case None => Ok(t, 0)
      case Some(i) =>
        match UpdatedRow(t[i], f)
        case None => Err(NotNullFailed)
        case Some(row) =>
          if NumberFree(t, row.roomNumber, i) then
            assert UniqueKeys(t) ==> UniqueKeys(t[i := row]) by {
              if UniqueKeys(t) {
                KeysKeptUnique(t, i, row);
              }
            }
            Ok(t[i := row], 1)
          else Err(UniqueFailed)
  }

  /** `DELETE FROM rooms WHERE id = ?` (server.js:281). Only the first row
      carrying the id is removed; under `UniqueKeys` there is at most one. */
  function Delete(t: seq<Room>, id: string, engineFault: bool): (r: Exec)
    ensures r.Err? <==> engineFault
    ensures r.Err? ==> r.error == EngineFailed
    ensures r.Ok? && r.changes == 0 <==> !engineFault && IndexOf(t, id).None?
    ensures r.Ok? && r.changes == 0 ==> r.table == t
    ensures r.Ok? && r.changes != 0 ==>
              && r.changes == 1 && IndexOf(t, id).Some?
              && |r.table| == |t| - 1
              && multiset(r.table) + multiset{t[IndexOf(t, id).value]} == multiset(t)
    ensures UniqueKeys(t) && r.Ok? ==> UniqueKeys(r.table)
    ensures UniqueKeys(t) && r.Ok? ==> forall k :: 0 <= k < |r.table| ==> r.table[k].id != Some(id)
  {
    if engineFault then Err(EngineFailed)
    else
      match IndexOf(t, id)
      case None => Ok(t, 0)
      case Some(i) =>
        assert t == t[..i] + [t[i]] + t[i + 1..];
        var u := RemoveAt(t, i);
        assert UniqueKeys(t) ==> forall k :: 0 <= k < |u| ==> u[k].id != Some(id) by {
          if UniqueKeys(t) {
            forall k | 0 <= k < |u| ensures u[k].id != Some(id) {
              if k < i {
                assert !Clash(t[k], t[i]);
              } else {
                assert !Clash(t[i], t[k + 1]);
              }
            }
          }
        }
        Ok(u, 1)
  }

  /** `UPDATE rooms SET status = ?, updatedAt = ?, updatedBy = ? WHERE id = ?`
      (server.js:305-312); `status` and `updatedBy` are NOT NULL, and no
      unique index covers a column the statement sets. */
  function SetStatus(t: seq<Room>, id: string, status: Option<string>, stamp: string,
                     email: Option<string>, engineFault: bool): (r: Exec)
    ensures r.Err? ==> engineFault || r.error == NotNullFailed
    ensures r == Err(EngineFailed) <==> engineFault
    ensures r.Ok? && r.changes == 0 <==> !engineFault && IndexOf(t, id).None?
    ensures r.Ok? && r.changes == 0 ==> r.table == t
    ensures r.Ok? && r.changes != 0 ==>
              && r.changes == 1 && status.Some? && email.Some?
              && IndexOf(t, id).Some?
              && var i := IndexOf(t, id).value;
              && |r.table| == |t|
              && r.table[i] == t[i].(status := status.value, updatedAt := stamp, updatedBy := email.value)
              && (forall k :: 0 <= k < |t| && k != i ==> r.table[k] == t[k])
    ensures r == Err(NotNullFailed) <==> !engineFault && IndexOf(t, id).Some? && (status.None? || email.None?)
    ensures UniqueKeys(t) && r.Ok? ==> UniqueKeys(r.table)
  {
    if engineFault then Err(EngineFailed)
    else
      match IndexOf(t, id)
      case None => Ok(t, 0)
      case Some(i) =>
        if status.None? || email.None? then Err(NotNullFailed)
        else
          var row := t[i].(status := status.value, updatedAt := stamp, updatedBy := email.value);
          assert UniqueKeys(t) ==> UniqueKeys(t[i := row]) by {
            if UniqueKeys(t) {
              KeysKeptUnique(t, i, row);
            }
          }
          Ok(t[i := row], 1)
  }
}

=== FILE: schema.dfy ===
/**
 The two tables of the in-memory SQLite database (server.js:16-45) and the
 objects a request body carries into them.
 */
module Schema {
  import opened Wrappers

  /** A row of `work_submissions`; every text column is NOT NULL and `id` is
      an AUTOINCREMENT integer key. */
  datatype Submission = Submission(
    id: int,
    studentName: string,
    submissionDate: string,
    workType: string,
    content: string,
    createdAt: string)

  /**
   A row of `rooms`. `id` is TEXT PRIMARY KEY, which SQLite (unlike the SQL
   standard) lets hold NULL because it is not an INTEGER PRIMARY KEY, so it is
   optional here. `roomNumber` is NOT NULL UNIQUE. `floor`, `capacity` and
   `description` are nullable. `price` is REAL in the table and is kept as an
   opaque integer.
   */
  datatype Room = Room(
    id: Option<string>,
    roomNumber: string,
    roomType: string,
    price: int,
    status: string,
    floor: Option<int>,
    capacity: Option<int>,
    description: Option<string>,
    createdAt: string,
    createdBy: string,
    updatedAt: string,
    updatedBy: string)

  /**
   The `room` object of a create request or the `updates` object of an update
   request. A key that is absent or null is None; the SQLite driver binds
   either as NULL.
   */
  datatype RoomFields = RoomFields(
    id: Option<string>,
    roomNumber: Option<string>,
    roomType: Option<string>,
    price: Option<int>,
    status: Option<string>,
    floor: Option<int>,
    capacity: Option<int>,
    description: Option<string>,
    createdAt: Option<string>,
    createdBy: Option<string>,
    updatedAt: Option<string>,
    updatedBy: Option<string>)
}

=== FILE: seed.dfy ===
/**
 The three sample rooms inserted with `INSERT OR IGNORE` when the server
 starts (server.js:48-112).
 */
module Seed {
  import opened Wrappers
  import opened Schema
  import opened RoomsTable

  /** One sample room; each audit timestamp is the clock reading `now`. */
  function SampleRoom(id: string, roomNumber: string, roomType: string, price: int, status: string,
                      floor: int, capacity: int, description: string, now: string): Room
  {
    Room(Some(id), roomNumber, roomType, price, status, Some(floor), Some(capacity), Some(description),
         now, "system", now, "system")
  }

  /** The sample rooms in insertion order; prices are the source's REAL
      values 2500.00, 3500.00 and 5000.00. */
  function SampleRooms(now: string): seq<Room>
  {
    [ SampleRoom("room_1", "101", "standard", 2500, "available", 1, 2, "Standard room with garden view", now),
      SampleRoom("room_2", "102", "deluxe", 3500, "occupied", 1, 2, "Deluxe room with city view", now),
      SampleRoom("room_3", "201", "suite", 5000, "dirty", 2, 4, "Executive suite with balcony", now) ]
  }

  /** `INSERT OR IGNORE` of each row of `rows` in turn. */
  function InsertAllOrIgnore(t: seq<Room>, rows: seq<Room>): (r: seq<Room>)
    ensures UniqueKeys(t) ==> UniqueKeys(r)
    ensures |r| <= |t| + |rows|
    decreases |rows|
  {
    if |rows| == 0 then t else InsertAllOrIgnore(InsertOrIgnore(t, rows[0]), rows[1..])
  }

  /** The rooms table right after start-up. */
  function SeededRooms(now: string): (r: seq<Room>)
    ensures UniqueKeys(r)
  {
    InsertAllOrIgnore([], SampleRooms(now))
  }

  /** Rows that clash neither with the table nor with each other are all
      inserted. */
  lemma {:induction false} InsertAllKeepsAll(t: seq<Room>, rows: seq<Room>)
    requires UniqueKeys(t + rows)
    ensures InsertAllOrIgnore(t, rows) == t + rows
    decreases |rows|
  {
    if |rows| != 0 {
      var u := t + rows;
      assert Admits(t, rows[0], -1) by {
        forall j | 0 <= j < |t| ensures !Clash(t[j], rows[0]) {
          assert u[j] == t[j] && u[|t|] == rows[0];
        }
      }
      assert t + [rows[0]] + rows[1..] == u;
      InsertAllKeepsAll(t + [rows[0]], rows[1..]);
    }
  }

  /** The sample rooms differ in both `id` and `roomNumber`. */
  lemma SampleRoomsUnique(now: string)
    ensures UniqueKeys(SampleRooms(now))
  {
    var s := SampleRooms(now);
    assert s[0].roomNumber == "101" && s[1].roomNumber == "102" && s[2].roomNumber == "201";
    assert s[0].id == Some("room_1") && s[1].id == Some("room_2") && s[2].id == Some("room_3");
  }

  /** None of the sample rows clashes with another, so none is ignored. */
  lemma SeedKeepsEverySample(now: string)
    ensures SeededRooms(now) == SampleRooms(now)
  {
    SampleRoomsUnique(now);
    assert [] + SampleRooms(now) == SampleRooms(now);
    InsertAllKeepsAll([], SampleRooms(now));
  }
}

=== FILE: server.dfy ===
/**
 The request handlers of the backend (server.js:134-326) as pure functions
 from a store and a request to a response and the new store.
 */
module Server {
  import opened Wrappers
  import opened Schema
  import opened Ordering
  import opened RoomsTable
  import opened SubmissionLog
  import Seed

  /** The `user` object of a request body. Its role is trusted as sent. A
      truthy `user` that is not an object reads as a user with no role. */
  datatype User = User(role: Option<string>, email: Option<string>)

  /** What a handler reads from outside the request: the first and second
      `new Date().toISOString()` it evaluates, and whether the database
      statement fails for a reason other than a declared constraint. */
  datatype Env = Env(clock1: string, clock2: string, storeFails: bool)

  /** The whole database: both tables. */
  datatype Store = Store(submissions: seq<Submission>, rooms: seq<Room>)

  /** The JSON body of a response. `Failure` is `{success: false, error}`;
      every other variant carries `success: true`. */
  datatype Body =
    | Failure(error: string)
    | Saved(id: int, message: string)
    | SubmissionRows(submissions: seq<Submission>)
    | RoomRows(rooms: seq<Room>)
    | RoomData(room: RoomFields)
    | StatusData(status: string, updatedAt: string)
    | Deleted

  datatype Response = Response(code: int, body: Body)

  datatype Reply = Reply(response: Response, store: Store)

  const MissingFields := "Missing required fields: studentName, workType, content"
  const SaveFailed := "Failed to save submission"
  const SavedMessage := "Work submission saved successfully"
  const FetchSubmissionsFailed := "Failed to fetch submissions"
  const FetchRoomsFailed := "Failed to fetch rooms"
  const AdminRequired := "Admin permission required"
  const RoomNumberTaken := "Room number already exists"
  const AddFailed := "Failed to add room"
  const UpdateFailed := "Failed to update room"
  const RoomNotFound := "Room not found"
  const DeleteFailed := "Failed to delete room"
  const PermissionRequired := "Permission required"
  const StatusFailed := "Failed to update room status"
  /** The reply of the error middleware (server.js:329-332), reached when a
      handler throws, as reading a field of a missing `room` or `updates` does. */
  const SomethingWentWrong := "Something went wrong!"

  /** The store invariant: the keys of `rooms` are unique and submission ids grow. */
  predicate Valid(s: Store)
  {
    UniqueKeys(s.rooms) && IdsIncreasing(s.submissions)
  }

  /** The store once the tables are created and seeded. */
  function Boot(now: string): (s: Store)
    ensures Valid(s)
  {
    Store([], Seed.SeededRooms(now))
  }

  /** JavaScript truthiness of a body field that should hold text. */
  predicate Truthy(v: Option<string>)
  {
    v.Some? && v.value != ""
  }

  /** `!user || user.role !== 'admin'` is false. */
  predicate IsAdmin(user: Option<User>)
  {
    user.Some? && user.value.role == Some("admin")
  }

  /** The looser gate of the status route: role `admin` or `student`. */
  predicate MaySetStatus(user: Option<User>)
  {
    user.Some? && (user.value.role == Some("admin") || user.value.role == Some("student"))
  }

  /** The `rooms` row a create stores for the `room` object `f`: every
      supplied column, with `updatedBy` taken from `createdBy`. */
  predicate StoredAs(f: RoomFields, row: Room)
  {
    && row.id == f.id
    && f.roomNumber == Some(row.roomNumber)
    && f.roomType == Some(row.roomType)
    && f.price == Some(row.price)
    && f.status == Some(row.status)
    && row.floor == f.floor && row.capacity == f.capacity && row.description == f.description
    && f.createdAt == Some(row.createdAt)
    && f.createdBy == Some(row.createdBy)
    && f.updatedAt == Some(row.updatedAt)
    && row.updatedBy == row.createdBy
  }

  /** `after` is `before` with the columns of an update taken from `f`, and
      `id`, `createdAt` and `createdBy` kept. */
  predicate ReplacedBy(before: Room, f: RoomFields, after: Room)
  {
    && after.id == before.id
    && after.createdAt == before.createdAt
    && after.createdBy == before.createdBy
    && f.roomNumber == Some(after.roomNumber)
    && f.roomType == Some(after.roomType)
    && f.price == Some(after.price)
    && f.status == Some(after.status)
    && after.floor == f.floor && after.capacity == f.capacity && after.description == f.description
    && f.updatedAt == Some(after.updatedAt)
    && f.updatedBy == Some(after.updatedBy)
  }

  /** `after` agrees with `before` on every row but the one at index `i`. */
  predicate OthersKept(before: seq<Room>, after: seq<Room>, i: int)
  {
    |after| == |before| && forall k :: 0 <= k < |before| && k != i ==> after[k] == before[k]
  }

  /** POST /api/submissions (server.js:134-163). */
  function PostSubmission(s: Store, studentName: Option<string>, workType: Option<string>,
                          content: Option<string>, env: Env): (r: Reply)
    ensures r.response.code in {200, 400, 500}
    ensures r.response.code == 200 <==>
              Truthy(studentName) && Truthy(workType) && Truthy(content) && !env.storeFails
    ensures r.response.code == 400 <==> !(Truthy(studentName) && Truthy(workType) && Truthy(content))
    ensures r.response.code == 400 ==> r.response.body == Failure(MissingFields)
    ensures r.response.code == 500 ==> r.response.body == Failure(SaveFailed)
    ensures r.response.code == 500 <==>
              Truthy(studentName) && Truthy(workType) && Truthy(content) && env.storeFails
    ensures r.response.code != 200 ==> r.store == s
    ensures r.store.rooms == s.rooms
    ensures r.response.code == 200 ==>
              && |r.store.submissions| == |s.submissions| + 1
              && r.store.submissions[..|s.submissions|] == s.submissions
              && var row := r.store.submissions[|s.submissions|];
              && r.response.body == Saved(row.id, SavedMessage)
              && Some(row.studentName) == studentName
              && Some(row.workType) == workType
              && Some(row.content) == content
              && row.submissionDate == env.clock1 && row.createdAt == env.clock2
              && (IdsIncreasing(s.submissions) ==>
                    forall i :: 0 <= i < |s.submissions| ==> s.submissions[i].id < row.id)
    ensures Valid(s) ==> Valid(r.store)
  {
    if !(Truthy(studentName) && Truthy(workType) && Truthy(content)) then
      Reply(Response(400, Failure(MissingFields)), s)
    else if env.storeFails then
      Reply(Response(500, Failure(SaveFailed)), s)
    else
      var id := NextId(s.submissions);
      var row := Submission(id, studentName.value, env.clock1, workType.value, content.value, env.clock2);
      assert IdsIncreasing(s.submissions) ==> IdsIncreasing(s.submissions + [row]) by {
        if IdsIncreasing(s.submissions) {
          AppendKeepsIdsIncreasing(s.submissions, row);
        }
      }
      assert (s.submissions + [row])[..|s.submissions|] == s.submissions;
      Reply(Response(200, Saved(id, SavedMessage)), s.(submissions := s.submissions + [row]))
  }

  function SubmissionCreatedAt(row: Submission): string { row.createdAt }

  function RoomNumber(row: Room): string { row.roomNumber }

  /** GET /api/submissions: `ORDER BY created_at DESC` (server.js:165-174). */
  function GetSubmissions(s: Store, env: Env): (r: Reply)
    ensures r.store == s
    ensures r.response.code == 500 <==> env.storeFails
    ensures r.response.code == 500 ==> r.response.body == Failure(FetchSubmissionsFailed)
    ensures r.response.code != 500 ==>
              && r.response.code == 200 && r.response.body.SubmissionRows?
              && multiset(r.response.body.submissions) == multiset(s.submissions)
              && SortedBy(r.response.body.submissions, SubmissionCreatedAt, true)
  {
    if env.storeFails then Reply(Response(500, Failure(FetchSubmissionsFailed)), s)
    else Reply(Response(200, SubmissionRows(SortBy(s.submissions, SubmissionCreatedAt, true))), s)
  }

  /** GET /api/rooms: `ORDER BY roomNumber` (server.js:177-186). */
  function GetRooms(s: Store, env: Env): (r: Reply)
    ensures r.store == s
    ensures r.response.code == 500 <==> env.storeFails
    ensures r.response.code == 500 ==> r.response.body == Failure(FetchRoomsFailed)
    ensures r.response.code != 500 ==>
              && r.response.code == 200 && r.response.body.RoomRows?
              && multiset(r.response.body.rooms) == multiset(s.rooms)
              && SortedBy(r.response.body.rooms, RoomNumber, false)
  {
    if env.storeFails then Reply(Response(500, Failure(FetchRoomsFailed)), s)
    else Reply(Response(200, RoomRows(SortBy(s.rooms, RoomNumber, false))), s)
  }

  /** POST /api/rooms (server.js:188-226). */
  function PostRoom(s: Store, room: Option<RoomFields>, user: Option<User>, env: Env): (r: Reply)
    ensures r.response.code in {200, 400, 403, 500}
    ensures r.response.code == 403 <==> !IsAdmin(user)
    ensures r.response.code == 403 ==> r.response.body == Failure(AdminRequired)
    ensures r.response.code != 200 ==> r.store == s
    ensures r.store.submissions == s.submissions
    ensures r.response.code == 400 <==>
              && IsAdmin(user) && room.Some? && !env.storeFails
              && InsertedRow(room.value).Some?
              && exists j :: 0 <= j < |s.rooms|
                               && (Some(s.rooms[j].roomNumber) == room.value.roomNumber
                                   || (room.value.id.Some? && s.rooms[j].id == room.value.id))
    ensures r.response.code == 400 ==> r.response.body == Failure(RoomNumberTaken)
    ensures r.response.code == 500 <==>
              IsAdmin(user) && (room.None? || env.storeFails || InsertedRow(room.value).None?)
    ensures r.response.code == 500 ==>
              r.response.body == (if room.None? then Failure(SomethingWentWrong) else Failure(AddFailed))
    ensures r.response.code == 200 ==>
              && room.Some? && r.response.body == RoomData(room.value)
              && |r.store.rooms| == |s.rooms| + 1
              && r.store.rooms[..|s.rooms|] == s.rooms
              && StoredAs(room.value, r.store.rooms[|s.rooms|])
    ensures Valid(s) ==> Valid(r.store)
  {
    if !IsAdmin(user) then Reply(Response(403, Failure(AdminRequired)), s)
    else if room.None? then Reply(Response(500, Failure(SomethingWentWrong)), s)
    else
      match Insert(s.rooms, room.value, env.storeFails)
      case Err(UniqueFailed) => Reply(Response(400, Failure(RoomNumberTaken)), s)
      case Err(_) => Reply(Response(500, Failure(AddFailed)), s)
      case Ok(t, _) => Reply(Response(200, RoomData(room.value)), s.(rooms := t))
  }

  /** PUT /api/rooms/:id (server.js:228-269). */
  function PutRoom(s: Store, id: string, updates: Option<RoomFields>, user: Option<User>, env: Env): (r: Reply)
    ensures r.response.code in {200, 400, 403, 404, 500}
    ensures r.response.code == 403 <==> !IsAdmin(user)
    ensures r.response.code == 403 ==> r.response.body == Failure(AdminRequired)
    ensures r.response.code != 200 ==> r.store == s
    ensures r.store.submissions == s.submissions
    ensures r.response.code == 404 <==>
              IsAdmin(user) && updates.Some? && !env.storeFails
              && forall k :: 0 <= k < |s.rooms| ==> s.rooms[k].id != Some(id)
    ensures r.response.code == 404 ==> r.response.body == Failure(RoomNotFound)
    ensures r.response.code == 400 ==> r.response.body == Failure(RoomNumberTaken)
    ensures r.response.code == 500 <==>
              IsAdmin(user)
              && (updates.None? || env.storeFails
                  || (IndexOf(s.rooms, id).Some? && UpdatedRow(s.rooms[IndexOf(s.rooms, id).value], updates.value).None?))
    ensures r.response.code == 500 ==>
              r.response.body == (if updates.None? then Failure(SomethingWentWrong) else Failure(UpdateFailed))
    ensures r.response.code == 400 <==>
              && IsAdmin(user) && updates.Some? && !env.storeFails
              && IndexOf(s.rooms, id).Some?
              && UpdatedRow(s.rooms[IndexOf(s.rooms, id).value], updates.value).Some?
              && !NumberFree(s.rooms, updates.value.roomNumber.value, IndexOf(s.rooms, id).value)
    ensures r.response.code == 400 && UniqueKeys(s.rooms) ==>
              && updates.Some? && updates.value.roomNumber.Some?
              && exists j :: 0 <= j < |s.rooms| && s.rooms[j].id != Some(id)
                               && s.rooms[j].roomNumber == updates.value.roomNumber.value
    ensures r.response.code == 200 ==>
              && updates.Some? && r.response.body == RoomData(updates.value)
              && exists i :: 0 <= i < |s.rooms| && s.rooms[i].id == Some(id)
                               && OthersKept(s.rooms, r.store.rooms, i)
                               && ReplacedBy(s.rooms[i], updates.value, r.store.rooms[i])
    ensures Valid(s) ==> Valid(r.store)
  {
    if !IsAdmin(user) then Reply(Response(403, Failure(AdminRequired)), s)
    else if updates.None? then Reply(Response(500, Failure(SomethingWentWrong)), s)
    else
      match Update(s.rooms, id, updates.value, env.storeFails)
      case Err(UniqueFailed) =>
        assert UniqueKeys(s.rooms) ==> exists j :: 0 <= j < |s.rooms| && s.rooms[j].id != Some(id)
                                         && s.rooms[j].roomNumber == updates.value.roomNumber.value by {
          var i := IndexOf(s.rooms, id).value;
          var j :| 0 <= j < |s.rooms| && j != i && s.rooms[j].roomNumber == updates.value.roomNumber.value;
          if UniqueKeys(s.rooms) {
            if j < i { assert !Clash(s.rooms[j], s.rooms[i]); } else { assert !Clash(s.rooms[i], s.rooms[j]); }
          }
        }
        Reply(Response(400, Failure(RoomNumberTaken)), s)
      case Err(_) => Reply(Response(500, Failure(UpdateFailed)), s)
      case Ok(t, changes) =>
        if changes == 0 then Reply(Response(404, Failure(RoomNotFound)), s)
        else Reply(Response(200, RoomData(updates.value)), s.(rooms := t))
  }

  /** DELETE /api/rooms/:id (server.js:271-293). */
  function DeleteRoom(s: Store, id: string, user: Option<User>, env: Env): (r: Reply)
    ensures r.response.code in {200, 403, 404, 500}
    ensures r.response.code == 403 <==> !IsAdmin(user)
    ensures r.response.code == 403 ==> r.response.body == Failure(AdminRequired)
    ensures r.response.code == 500 <==> IsAdmin(user) && env.storeFails
    ensures r.response.code == 500 ==> r.response.body == Failure(DeleteFailed)
    ensures r.response.code != 200 ==> r.store == s
    ensures r.store.submissions == s.submissions
    ensures r.response.code == 404 <==>
              IsAdmin(user) && !env.storeFails
              && forall k :: 0 <= k < |s.rooms| ==> s.rooms[k].id != Some(id)
    ensures r.response.code == 404 ==> r.response.body == Failure(RoomNotFound)
    ensures r.response.code == 200 ==>
              && r.response.body == Deleted
              && |r.store.rooms| == |s.rooms| - 1
              && exists i :: 0 <= i < |s.rooms| && s.rooms[i].id == Some(id)
                               && multiset(r.store.rooms) + multiset{s.rooms[i]} == multiset(s.rooms)
    ensures r.response.code == 200 && UniqueKeys(s.rooms) ==>
              forall k :: 0 <= k < |r.store.rooms| ==> r.store.rooms[k].id != Some(id)
    ensures Valid(s) ==> Valid(r.store)
  {
    if !IsAdmin(user) then Reply(Response(403, Failure(AdminRequired)), s)
    else
      match Delete(s.rooms, id, env.storeFails)
      case Err(_) => Reply(Response(500, Failure(DeleteFailed)), s)
      case Ok(t, changes) =>
        if changes == 0 then Reply(Response(404, Failure(RoomNotFound)), s)
        else Reply(Response(200, Deleted), s.(rooms := t))
  }

  /** PATCH /api/rooms/:id/status (server.js:295-326). The stored `updatedAt`
      and the one in the reply are two separate clock readings. */
  function PatchRoomStatus(s: Store, id: string, status: Option<string>, user: Option<User>, env: Env): (r: Reply)
    ensures r.response.code in {200, 403, 404, 500}
    ensures r.response.code == 403 <==> !MaySetStatus(user)
    ensures r.response.code == 403 ==> r.response.body == Failure(PermissionRequired)
    ensures r.response.code == 500 <==>
              MaySetStatus(user)
              && (env.storeFails || (IndexOf(s.rooms, id).Some? && (status.None? || user.value.email.None?)))
    ensures r.response.code == 500 ==> r.response.body == Failure(StatusFailed)
    ensures r.response.code != 200 ==> r.store == s
    ensures r.store.submissions == s.submissions
    ensures r.response.code == 404 <==>
              MaySetStatus(user) && !env.storeFails
              && forall k :: 0 <= k < |s.rooms| ==> s.rooms[k].id != Some(id)
    ensures r.response.code == 404 ==> r.response.body == Failure(RoomNotFound)
    ensures r.response.code == 200 ==>
              && user.Some? && status.Some? && user.value.email.Some?
              && r.response.body == StatusData(status.value, env.clock2)
              && exists i :: 0 <= i < |s.rooms| && s.rooms[i].id == Some(id)
                               && OthersKept(s.rooms, r.store.rooms, i)
                               && r.store.rooms[i] == s.rooms[i].(status := status.value,
                                                                   updatedAt := env.clock1,
                                                                   updatedBy := user.value.email.value)
    ensures Valid(s) ==> Valid(r.store)
  {
    if !MaySetStatus(user) then Reply(Response(403, Failure(PermissionRequired)), s)
    else
      match SetStatus(s.rooms, id, status, env.clock1, user.value.email, env.storeFails)
      case Err(_) => Reply(Response(500, Failure(StatusFailed)), s)
      case Ok(t, changes) =>
        if changes == 0 then Reply(Response(404, Failure(RoomNotFound)), s)
        else Reply(Response(200, StatusData(status.value, env.clock2)), s.(rooms := t))
  }

  /** A request, as the route and body fields the handlers read. */
  datatype Request =
    | SubmitWork(studentName: Option<string>, workType: Option<string>, content: Option<string>)
    | ListSubmissions
    | ListRooms
    | AddRoom(room: Option<RoomFields>, user: Option<User>)
    | ReplaceRoom(id: string, updates: Option<RoomFields>, user: Option<User>)
    | RemoveRoom(id: string, user: Option<User>)
    | SetRoomStatus(id: string, status: Option<string>, user: Option<User>)

  /** One request together with what it read from outside. */
  datatype Call = Call(request: Request, env: Env)

  /** Route dispatch for the modelled endpoints. */
  function Handle(s: Store, req: Request, env: Env): (r: Reply)
    ensures Valid(s) ==> Valid(r.store)
    ensures r.response.code != 200 ==> r.store == s
  {
    match req
    case SubmitWork(n, w, c) => PostSubmission(s, n, w, c, env)
    case ListSubmissions => GetSubmissions(s, env)
    case ListRooms => GetRooms(s, env)
    case AddRoom(room, user) => PostRoom(s, room, user, env)
    case ReplaceRoom(id, updates, user) => PutRoom(s, id, updates, user, env)
    case RemoveRoom(id, user) => DeleteRoom(s, id, user, env)
    case SetRoomStatus(id, status, user) => PatchRoomStatus(s, id, status, user, env)
  }

  /** The store after serving `calls` one after another. */
  function Run(s: Store, calls: seq<Call>): Store
    decreases |calls|
  {
    if |calls| == 0 then s
    else Run(Handle(s, calls[0].request, calls[0].env).store, calls[1..])
  }
}

=== FILE: submission_log.dfy ===
/**
 The `work_submissions` table (server.js:18-27): rows are only ever
 appended, under AUTOINCREMENT ids.
 */
module SubmissionLog {
  import opened Schema

  /** Ids are positive and grow along the log, as AUTOINCREMENT hands them out. */
  predicate IdsIncreasing(log: seq<Submission>)
  {
    && (forall i :: 0 <= i < |log| ==> 0 < log[i].id)
    && (forall i, j :: 0 <= i < j < |log| ==> log[i].id < log[j].id)
  }

  /** The id AUTOINCREMENT gives the next row: one more than the largest id
      the table ever held, which, as rows are never deleted, is the last
      row's id; 1 for an empty table. */
  function NextId(log: seq<Submission>): (r: int)
    ensures IdsIncreasing(log) ==> 0 < r && forall i :: 0 <= i < |log| ==> log[i].id < r
  {
    if |log| == 0 then 1 else log[|log| - 1].id + 1
  }

  /** Appending a row under `NextId` keeps the ids increasing. */
  lemma AppendKeepsIdsIncreasing(log: seq<Submission>, row: Submission)
    requires IdsIncreasing(log)
    requires row.id == NextId(log)
    ensures IdsIncreasing(log + [row])
  {
  }
}

=== FILE: wrappers.dfy ===
/** Optional values: a JSON key that is absent or null, or a nullable SQL column. */
module Wrappers {

  datatype Option<T> = None | Some(value: T)
}
